=== FILE: README.md ===
# libebml master element, modelled in Dafny

This project models the master element of libebml (`EbmlMaster`, declared in
`ebml/EbmlMaster.h`). A master element is an EBML element whose payload is an
ordered list of child elements (section 2 of RFC 8794). The model covers:

- the child list and the operations on it: push, insert at an index or before
  another child, remove one, remove all, size and indexing;
- lookup by class ID: the deep `FindElt`, `FindFirstElt` and `FindNextElt` in
  their creating and non-creating forms, and `AddNewElt`;
- the mandatory-element pair `CheckMandatory` and `ProcessMandatory`, checked
  against the master's semantic context;
- the size and offset accessors `GetSize`, `GetDataStart` and `SetSizeInfinite`,
  including the unknown-size marker;
- the checksum flag and stored value: `EnableChecksum`, `HasChecksum`,
  `ForceChecksum` and `GetCrc32`.

Everything is a value. A `Master` is an immutable record. Each operation is a
pure function that returns the new record, plus any result the C++ member
returns. The exception is `CheckMandatory`, a method with a loop.

Files and modules:

- `wrappers.dfy` (`Wrappers`): `Option`, which stands for a pointer that may be null.
- `ebml_types.dfy` (`EbmlTypes`) holds the shared types:
  - `uint64` and its wrap-around;
  - class IDs and object handles;
  - child elements, each a leaf or a nested master;
  - the element factory;
  - the external codec's width functions.
- `child_list.dfy` (`ChildList`) works on a plain list of children:
  - scans by class ID and by object identity;
  - insertion and removal at an index;
  - the document-order listing of a subtree.
- `ebml_master.dfy` (`EbmlMaster`): the master record and every operation the header declares on it.
- `master_properties.dfy` (`MasterProperties`): lemmas that relate several operations.

Only the header is part of this model. Some operations have their bodies
inline in the header: `GetSize`, `GetDataStart`, `SetSizeInfinite`,
`IsDefaultValue`, `ListSize`, `operator[]`, `RemoveAll` and the checksum
accessors. Those are modelled on their bodies. For the other operations the
header gives only a declaration and a doc-comment. Where the declaration
leaves a case open, the contract picks one reading, and the member's doc
comment says which; "## Left out" lists each such reading. The header's
default arguments (`bSizeIsKnown = true`, `aIsInfinite = true`,
`position = 0`, `bIsEnabled = true`) are the parameters' default values.

Inputs the model takes as parameters:

- `EBML_ID_LENGTH` and `CodedSizeLength` are the `Codec` parameter of
  `GetDataStart`. The model only assumes that each returns a width of 1 to 8
  octets (sections 4 and 5 of RFC 8794).
- The schema's `Create` callbacks are a `Factory` parameter. It builds, for
  each class ID and object handle, a default element of that class that is
  the object with that handle.
- Allocation is a handle parameter. Each creating operation takes the handle
  of the object it allocates, and `ProcessMandatory` takes the first of a run
  of consecutive handles. A handle that no child uses stands for a new
  object.
- The semantic context is a list of `(id, mandatory)` entries stored in the
  master.

## Model

| member | source | states |
|---|---|---|
| EbmlMaster.NewMaster | ebml/EbmlMaster.h:48-56 | A newly built master is bound to its context. It has no children, so `IsDefaultValue` holds. Its size is finite exactly when the caller says the size is known. Checksumming is off (`bChecksumUsedByDefault`). |
| EbmlMaster.SetSizeInfinite | ebml/EbmlMaster.h:68-71 | Always reports success. Afterwards the size is finite exactly when `aIsInfinite` is false. No other field changes. |
| EbmlMaster.GetSize | ebml/EbmlMaster.h:74-79 | A finite size reads back as the stored size. An unknown size reads as 2^64-1, the all-ones value that `0-1` gives as a `uint64` and that marks the unknown data size of section 6.2 of RFC 8794. |
| EbmlMaster.GetSizeAsWritten | ebml/EbmlMaster.h:74-79 | The header's `GetSize` as written, with a budget of stack frames. When it returns at all, it returns the 2^64-1 marker, and on an unknown size it always does. |
| EbmlMaster.GetSizeAsWrittenNeverReturns | ebml/EbmlMaster.h:74-79 | On a finite size, the header's `GetSize` calls itself again. It never returns a value, however much stack it is given. |
| EbmlMaster.GetSizeAsWrittenUnknown | ebml/EbmlMaster.h:77-78 | On an unknown size, the header's `GetSize` returns the same marker as the corrected one. |
| EbmlMaster.GetDataStart | ebml/EbmlMaster.h:81-83 | The data start is the element offset plus the ID-field width plus the size-field width. The size-field width is computed from the current `GetSize`, the requested size width and the finite flag. So the payload begins 2 to 16 bytes after the element, unless the offset is within 16 of the `uint64` limit. |
| EbmlMaster.GetDataStartWraps | ebml/EbmlMaster.h:81-83 | At the largest offset, the `uint64` sum wraps to a value below the offset. |
| EbmlMaster.IsDefaultValue | ebml/EbmlMaster.h:126-128 | A master has its default value exactly when `ListSize` is 0. |
| EbmlMaster.PushElement | ebml/EbmlMaster.h:73 | Reports success. The element becomes the new last child, and the old children stay in front in their order. |
| EbmlMaster.InsertElement | ebml/EbmlMaster.h:102-105 | Succeeds exactly when the position is at most the list size. On success the element sits at that index and removing it gives back the old list, so the other children keep their order. On failure nothing changes. |
| EbmlMaster.InsertElementBefore | ebml/EbmlMaster.h:106 | Succeeds exactly when `before` is a child. On success the element lands at `before`'s old index, `before` moves one place right and the rest keep their order. On failure nothing changes. |
| EbmlMaster.Remove | ebml/EbmlMaster.h:137-140 | An index in range removes that one child. The list shrinks by one, and re-inserting the child at that index restores the list. An index out of range changes nothing. |
| EbmlMaster.RemoveAll | ebml/EbmlMaster.h:142-145 | Afterwards `ListSize` is 0 and `IsDefaultValue` holds. Every other field is unchanged. |
| EbmlMaster.FindElt | ebml/EbmlMaster.h:85-88 | Returns the first element of the class in document order of the whole subtree, or null. It returns null exactly when no element in the subtree has that class. |
| EbmlMaster.FindFirstElt | ebml/EbmlMaster.h:89-93 | Returns the lowest index whose child has the class. It returns `None` exactly when no direct child has that class. |
| EbmlMaster.FindFirstEltOrCreate | ebml/EbmlMaster.h:92 | A hit returns the first match and changes nothing. A miss with creation appends one new default element of the class, the object with the given handle, and returns its index. A miss without creation returns null and changes nothing. |
| EbmlMaster.FindNextElt | ebml/EbmlMaster.h:95-99 | Returns the first index after the object `past` whose child has `past`'s class. `past` is located as an object, so the class searched for is its own. The result is null exactly when `past` is not a child or no later child has that class. |
| EbmlMaster.FindNextEltOrCreate | ebml/EbmlMaster.h:98 | Same as `FindNextElt`, except that a miss with creation appends one new default element of `past`'s class, the object with the given handle, and returns its index. |
| EbmlMaster.AddNewElt | ebml/EbmlMaster.h:100 | Always appends exactly the class's default element built as the object with the given handle, even if the class is already present. It returns the index of the new element, and the old children stay in front. |
| EbmlMaster.EnableChecksum | ebml/EbmlMaster.h:153-154 | Afterwards `HasChecksum` equals the argument. The stored CRC, the children and every other field are unchanged. |
| EbmlMaster.ForceChecksum | ebml/EbmlMaster.h:156-160 | Afterwards `HasChecksum` is true and `GetCrc32` returns the forced value. The children and every other field are unchanged. |
| EbmlMaster.CheckMandatory | ebml/EbmlMaster.h:131-135 | Returns true exactly when every class the context marks mandatory has at least one direct child. |
| EbmlMaster.AddMissing | ebml/EbmlMaster.h:180-183 | The list keeps its old elements as a prefix. Afterwards every mandatory class of the entries is present. Each added element is the default element of a mandatory class that was absent, built on the next of the consecutive new handles, and no class gets two. A list that already had every mandatory class is returned unchanged. |
| EbmlMaster.ProcessMandatory | ebml/EbmlMaster.h:180-183 | Afterwards every mandatory class has a direct child. The old children stay in front in their order. Each added child is the default element of a mandatory class that was missing, built on the next of the consecutive new handles, and no class gets two. A master that already passes the check is unchanged. |
| ChildList.FindDeep | ebml/EbmlMaster.h:85-88 | The depth-first search returns the first element of the class in the document-order listing of the list and its nested masters. |
| ChildList.RemoveAfterInsert | ebml/EbmlMaster.h:102-105 | Removing the element just inserted at an index gives back the original list. |
| ChildList.InsertAfterRemove | ebml/EbmlMaster.h:137-140 | Putting a removed element back at its index gives back the original list. |
| MasterProperties.IsFiniteSizeFollowsSetter | ebml/EbmlMaster.h:71-75 | `IsFiniteSize` decides what `GetSize` reports: without it `GetSize` is 2^64-1. `SetSizeInfinite(b)` leaves it equal to `!b`. Pushing, clearing the list and forcing a checksum leave it unchanged. |
| MasterProperties.HasChecksumFollowsSetters | ebml/EbmlMaster.h:153-154 | `HasChecksum` is false on a new master. It is `b` after `EnableChecksum(b)` and true after `ForceChecksum`. Push, insert, remove and `RemoveAll` leave it unchanged. |
| MasterProperties.GetCrc32FollowsSetters | ebml/EbmlMaster.h:156-160 | `GetCrc32` returns the value `ForceChecksum` stored. `EnableChecksum`, push, insert, remove and `RemoveAll` leave it unchanged. |
| MasterProperties.ListSizeTracksEdits | ebml/EbmlMaster.h:118 | `ListSize` is 0 on a new master and after `RemoveAll`. A push or a successful insert adds one, and a removal in range takes one away. A failed insert or an out-of-range removal leaves it unchanged. |
| MasterProperties.AtAfterInsert | ebml/EbmlMaster.h:123-124 | After an insert at `p`, `operator[]` at `p` gives the new element. Indices before `p` give what they gave before, and later indices give the element one place to the left. |
| MasterProperties.AtAfterRemove | ebml/EbmlMaster.h:123-124 | After removing index `i`, `operator[]` gives the same elements before `i`. From `i` on, each index gives the element that was one place to the right. |
| MasterProperties.AddNewEltKeepsFirst | ebml/EbmlMaster.h:100 | After `AddNewElt`, `FindFirstElt` for the class still finds the earlier child when there was one, and otherwise finds the new one. Removing the new last child gives back the master. |
| MasterProperties.SizeModeRoundTrip | ebml/EbmlMaster.h:68-79 | After switching to unknown size, `GetSize` is 2^64-1. Switching back makes it the stored size again. Setting the flag back to its old value gives back the original master. |
| MasterProperties.ChecksumFlagKeepsValue | ebml/EbmlMaster.h:153-160 | Disabling checksumming after `ForceChecksum(c)` clears the flag but keeps `GetCrc32` equal to `c`. The children are unchanged. |
| MasterProperties.RemoveUndoesInsert | ebml/EbmlMaster.h:137-140 | `Remove` at the index of a successful `InsertElement` restores the master. |
| MasterProperties.InsertUndoesRemove | ebml/EbmlMaster.h:102-105 | Inserting a removed child back at its old index succeeds and restores the master. |
| MasterProperties.PushIsInsertAtEnd | ebml/EbmlMaster.h:73 | `PushElement` is the same as `InsertElement` at position `ListSize`. |
| MasterProperties.InsertFrontIsFoundFirst | ebml/EbmlMaster.h:105 | After an insert at the default position 0, `FindFirstElt` for the element's class returns index 0. |
| MasterProperties.DefaultArguments | ebml/EbmlMaster.h:56-153 | The header's default arguments: a master built without the flag has a known size, `SetSizeInfinite()` makes the size unknown, `EnableChecksum()` turns checksumming on, and `InsertElement(element)` inserts at index 0. |
| MasterProperties.RemoveAllMandatory | ebml/EbmlMaster.h:142-145 | After `RemoveAll` the master has its default value. It then passes the mandatory check exactly when its context marks no class mandatory. |
| MasterProperties.FindFirstFindsCreated | ebml/EbmlMaster.h:92 | The creating `FindFirstElt` always returns an element. A later non-creating `FindFirstElt` returns that same index, not a new element. |
| MasterProperties.CreateOnEmpty | ebml/EbmlMaster.h:92 | On an empty master, the creating lookup leaves exactly one child, the class default, and returns index 0. |
| MasterProperties.FindNextAfterFirst | ebml/EbmlMaster.h:95-99 | `FindNextElt` from the first child of a class finds the second child of that class, or null when there is no second child. |
| MasterProperties.FindNextCreatingYields | ebml/EbmlMaster.h:98 | The creating `FindNextElt` always returns an index in the list, whether or not `past` is a child. |
| MasterProperties.FindNextFindsCreated | ebml/EbmlMaster.h:95-99 | When `past` is a child, a later non-creating `FindNextElt` from `past` returns the index the creating one returned. |
| MasterProperties.AddedIsNewObject | ebml/EbmlMaster.h:100 | An element that `AddNewElt` builds on a handle no child uses is a new object. Looking it up by identity finds it at the new last index. |
| MasterProperties.CreateNextAfterNewest | ebml/EbmlMaster.h:95-100 | Nothing follows the child `AddNewElt` just appended, so `FindNextElt` from it returns null. The creating form then appends a second new object of the class, on another unused handle, behind it and returns that object's index. |
| MasterProperties.FindEltSeesDirectChildren | ebml/EbmlMaster.h:85-88 | If a direct child has the class, `FindElt` finds an element of that class. |
| MasterProperties.FindEltOnLeaves | ebml/EbmlMaster.h:85-93 | When no child is a master, `FindElt` and the non-creating `FindFirstElt` return the same element. |
| MasterProperties.ProcessMandatoryIdempotent | ebml/EbmlMaster.h:180-183 | A second `ProcessMandatory` adds nothing, whatever handles it is given. |
| MasterProperties.ProcessMandatoryScenario | ebml/EbmlMaster.h:131-135 | Take a context with mandatory class 1 and optional class 2. An empty master fails the check. `ProcessMandatory` gives it exactly one child, the class-1 default, and then the check passes. |

## Findings

| source | as written | input that shows it | evidently intended | confidence | as-written member | corrected member |
|---|---|---|---|---|---|---|
| ebml/EbmlMaster.h:74-79 | The finite branch returns `GetSize()` unqualified. That name resolves to this same member, so the call recurses with no base case. `GetDataStart` (line 82) calls `GetSize()` too and inherits the problem. | Any master whose size is finite, for example one built with `bSizeIsKnown = true`. | Return the size stored by the element base class, i.e. call the base-class `GetSize`. | high; not executed | EbmlMaster.GetSizeAsWritten, EbmlMaster.GetSizeAsWrittenNeverReturns | EbmlMaster.GetSize |

`GetDataStart` and the lemmas use the corrected `GetSize`.

## Left out

- `Read`, `ReadData`, `RenderData`, `WriteHead`: these are stream I/O through
  `IOCallback` and `EbmlStream`, and their bodies are not part of this model.
- `UpdateSize`: its body is not part of this model, so the model states no
  rule for summing child sizes.
- `Sort`: its ordering rule comes from the schema and is not visible.
- `VerifyChecksum` and the CRC-32 computation: the `EbmlCrc32` class is
  external. Only the checksum flag and the stored value are modelled.
- `FindAllMissingElements`: its result is human-readable strings built from
  schema names that are not visible.
- The copy constructor, the destructor and pointer ownership: these are
  memory-management concerns. The child list is a value, and removing a child
  just drops it.
- `begin()` and `end()`: the iterators are the sequence itself.
- `ValidateSize()` and `IsMaster()`: both are constant `true` answers. A nested
  master is the `Nested` case of a child's body.
- `GetChild`, `FindChild`, `GetNextChild` and `AddNewChild`: these templates
  are unchecked `static_cast` wrappers around `FindFirstEltOrCreate` (creating),
  `FindFirstElt`, `FindNextEltOrCreate` (creating) and `AddNewElt`. The casts
  are not modelled.
- `EBML_ID_LENGTH` and `CodedSizeLength`: these are external codecs. They are
  parameters constrained to 1..8 octets, and their bodies are not part of this
  model.
- EbmlMaster.GetDataStart: the bound "2 to 16 bytes after the element" is
  stated only for offsets up to 2^64 - 17. Above that, the `uint64` sum in the
  header wraps, as `GetDataStartWraps` shows.
- EbmlMaster.NewMaster: the constructor's body is not visible. The offset,
  stored size and size width start at zero. The model takes the reading that
  the constructor leaves the child list empty. If the constructor calls
  `ProcessMandatory`, a new master already holds one default element per
  mandatory class of its context, and `IsDefaultValue` fails for it whenever
  the context has a mandatory class.
- EbmlMaster.ProcessMandatory: the doc-comment says "add all the mandatory
  elements". The model reads this as adding one element for each mandatory
  class that is missing, which makes the operation idempotent. The body is not
  visible. The boolean result is not modelled, because the header does not
  say when it would be false.
- EbmlMaster.ProcessMandatory: the context entries carry only the class and
  its mandatory flag, not whether the schema declares a default value. So
  every missing mandatory class gets its `Create` default, including a
  mandatory class whose schema declares no default value; the context entries
  cannot tell the two apart.
- EbmlMaster.FindElt: the search through nested masters, and the
  document-order first match, are a chosen reading. The header's doc-comment
  does not bound the depth. A scan of the direct children only is equally
  consistent with it, and would answer null where the class occurs only
  inside a nested master.
- EbmlMaster.At: the `operator[]` vector access is unchecked in C++, and an
  index out of range is undefined behaviour there. The model requires an index
  in range and does not model that behaviour.
- EbmlMaster.CheckMandatory: only direct children are checked. The header does
  not say whether nested masters are searched.
- EbmlMaster.InsertElement: the body is not visible. The model reports
  failure, changing nothing, exactly when `position` is past the end of the
  list; the header's comment does not say what happens there.
- EbmlMaster.Remove: the body is not visible. An index out of range changes
  nothing; the header does not say what happens there.
- EbmlMaster.PushElement: it has no failure path. The element is passed by
  reference and cannot be null, and the body is not visible.
- EbmlMaster.FindNextElt: when `past` is not a child, the model returns null.
  Nothing in the list follows it.
- Object identity: an object is located by value, its handle plus its state.
  The heap is not modelled, so the creating operations do not themselves
  require that the handle they are given is unused; the C++ allocator
  guarantees that. The lemmas about new objects (`AddedIsNewObject`,
  `CreateNextAfterNewest`) state it as a precondition. Locating by value
  assumes that one handle never carries two states: if a list held an element
  with handle 7 and another value with handle 7 were looked up, the model
  would call them different objects where the C++ pointers are equal.
- Integer widths: `size_t` and `unsigned int` positions are unbounded `nat`s.
  Only the `uint64` offset and size arithmetic is modelled with wrap-around.

=== FILE: child_list.dfy ===
/**
 Operations on an ordered list of child elements, independent of the master
 record that owns the list: linear scans by class ID and by object identity,
 insertion and removal at an index, and the document-order listing of a
 subtree.
 */
module ChildList {
  import opened Wrappers
  import opened EbmlTypes

  /** Some element of `s` belongs to class `id`. */
  predicate HasChild(s: seq<Elem>, id: Id)
  {
    exists i :: 0 <= i < |s| && s[i].id == id
  }

  /**
   The index of the first element at or after `start` whose class is `id`,
   or `None` when no element from `start` on has that class.
   */
  function FindFrom(s: seq<Elem>, id: Id, start: nat): (r: Option<nat>)
    ensures r.Some? ==> start <= r.value < |s| && s[r.value].id == id
    ensures r.Some? ==> forall k :: start <= k < r.value ==> s[k].id != id
    ensures r.None? <==> forall k :: start <= k < |s| ==> s[k].id != id
    decreases |s| - start
  {
    if start >= |s| then None
    else if s[start].id == id then Some(start)
    else FindFrom(s, id, start + 1)
  }

  /**
   The index of the first occurrence of the object `e`, if it is in `s`. This
   stands for the library's pointer comparison under the assumption that a
   handle belongs to one object, whose state is the rest of the value, so that
   two entries are the same object exactly when they are equal values. Nothing
   in the model enforces that assumption; see the README's note on object
   identity.
   */
  function IndexOf(s: seq<Elem>, e: Elem): (r: Option<nat>)
    ensures r.Some? ==> r.value < |s| && s[r.value] == e
    ensures r.Some? ==> forall k :: 0 <= k < r.value ==> s[k] != e
    ensures r.None? <==> forall k :: 0 <= k < |s| ==> s[k] != e
  {
    if |s| == 0 then None
    else if s[0] == e then Some(0)
    else match IndexOf(s[1..], e)
      case None => None
      case Some(k) => Some(k + 1)
  }

  /** Appending to a list does not move an object already in it. */
  lemma AppendKeepsIndex(s: seq<Elem>, x: Elem, e: Elem)
    requires IndexOf(s, e).Some?
    ensures IndexOf(s + [x], e) == IndexOf(s, e)
  {
    var p := IndexOf(s, e).value;
    var t := s + [x];
    assert t[p] == e;
    assert forall k :: 0 <= k < p ==> t[k] != e by {
      forall k | 0 <= k < p ensures t[k] != e {
        assert t[k] == s[k];
      }
    }
  }

  /** No element of `s` is the object with handle `h`: `h` is free for a new allocation. */
  predicate Unused(s: seq<Elem>, h: Handle)
  {
    forall k :: 0 <= k < |s| ==> s[k].handle != h
  }

  /** The first element of `s` whose class is `id`. */
  function FirstOfClass(s: seq<Elem>, id: Id): Option<Elem>
  {
    match FindFrom(s, id, 0)
    case None => None
    case Some(k) => Some(s[k])
  }

  /** `e` placed at index `p`; the elements around it keep their order. */
  function InsertAt(s: seq<Elem>, e: Elem, p: nat): (r: seq<Elem>)
    requires p <= |s|
    ensures |r| == |s| + 1 && r[p] == e
    ensures forall k :: 0 <= k < p ==> r[k] == s[k]
    ensures forall k :: p < k < |r| ==> r[k] == s[k - 1]
  {
    s[..p] + [e] + s[p..]
  }

  /** `s` without its element at index `i`; the others keep their order. */
  function RemoveAt(s: seq<Elem>, i: nat): (r: seq<Elem>)
    requires i < |s|
    ensures |r| == |s| - 1
    ensures forall k :: 0 <= k < i ==> r[k] == s[k]
    ensures forall k :: i <= k < |r| ==> r[k] == s[k + 1]
  {
    s[..i] + s[i + 1..]
  }

  /** Removing the element just inserted gives back the original list. */
  lemma RemoveAfterInsert(s: seq<Elem>, e: Elem, p: nat)
    requires p <= |s|
    ensures RemoveAt(InsertAt(s, e, p), p) == s
  {
  }

  /** Putting a removed element back where it was gives back the original list. */
  lemma InsertAfterRemove(s: seq<Elem>, i: nat)
    requires i < |s|
    ensures InsertAt(RemoveAt(s, i), s[i], i) == s
  {
  }

  /**
   All elements of the list and, below every nested master, its own
   descendants, in document order: each element comes right before the
   listing of its children.
   */
  function Flatten(s: seq<Elem>): (r: seq<Elem>)
    ensures |s| <= |r|
    ensures forall k :: 0 <= k < |s| ==> s[k] in r
    decreases s
  {
    if |s| == 0 then []
    else [s[0]] + Below(s[0]) + Flatten(s[1..])
  }

  /** The document-order listing of the descendants of `e` (none for a leaf). */
  function Below(e: Elem): seq<Elem>
    decreases e
  {
    match e.body
    case Leaf => []
    case Nested(children) => Flatten(children)
  }

  /**
   The first element of a concatenation with a given class is the first one
   of the left part, or failing that the first one of the right part.
   */
  lemma {:induction false} FirstOfClassConcat(a: seq<Elem>, b: seq<Elem>, id: Id)
    ensures FirstOfClass(a + b, id) ==
      if FirstOfClass(a, id).Some? then FirstOfClass(a, id) else FirstOfClass(b, id)
  {
    var ab := a + b;
    match FindFrom(a, id, 0)
    case Some(k) =>
      assert ab[k] == a[k];
      assert forall j :: 0 <= j < k ==> ab[j] == a[j];
      var r := FindFrom(ab, id, 0);
      assert r.Some? && r.value == k;
    case None =>
      assert forall j :: 0 <= j < |a| ==> ab[j] == a[j];
      match FindFrom(b, id, 0)
      case Some(k) =>
        assert ab[|a| + k] == b[k];
        assert forall j :: |a| <= j < |a| + k ==> ab[j] == b[j - |a|];
        var r := FindFrom(ab, id, 0);
        assert r.Some? && r.value == |a| + k;
      case None =>
        assert forall j :: |a| <= j < |ab| ==> ab[j] == b[j - |a|];
  }

  /**
   Depth-first search of a list and the masters nested in it: the first
   element of class `id` in document order.
   */
  function FindDeep(s: seq<Elem>, id: Id): (r: Option<Elem>)
    ensures r == FirstOfClass(Flatten(s), id)
    ensures r.Some? ==> r.value.id == id
    decreases s
  {
    if |s| == 0 then None
    else
      FirstOfClassConcat([s[0]] + Below(s[0]), Flatten(s[1..]), id);
      FirstOfClassConcat([s[0]], Below(s[0]), id);
      if s[0].id == id then Some(s[0])
      else
        match FindBelow(s[0], id)
        case Some(e) => Some(e)
        case None => FindDeep(s[1..], id)
  }

  /** Depth-first search below one element. */
  function FindBelow(e: Elem, id: Id): (r: Option<Elem>)
    ensures r == FirstOfClass(Below(e), id)
    decreases e
  {
    match e.body
    case Leaf => None
    case Nested(children) => FindDeep(children, id)
  }
}

=== FILE: ebml_master.dfy ===
/**
 The master element of libebml (class `EbmlMaster` in ebml/EbmlMaster.h): an
 EBML element whose payload is an ordered list of child elements (section 2
 of RFC 8794), with the size, offset and checksum state it keeps beside the
 list and the operations the class declares on the list.

 Only the header is part of this model. Operations whose bodies are inline
 in the header follow those bodies. For the others (`PushElement`,
 `InsertElement`, `Remove`, the `Find*`/`AddNewElt` lookups and the
 mandatory-element pair), where the declaration leaves a case open the
 contract picks one reading, and the member's doc comment says which. The
 header's default arguments are the parameters' default values.
 */
module EbmlMaster {
  import opened Wrappers
  import opened EbmlTypes
  import opened ChildList

  /** Whether a newly built master computes a checksum (`bChecksumUsedByDefault`). */
  const ChecksumUsedByDefault: bool := false

  /** What `GetSize` answers for an unknown size: the C++ expression `0-1` taken as a `uint64`. */
  const UnknownSize: uint64 := Wrap64(0 - 1)

  /**
   One entry of the semantic context (`EbmlSemanticContext`) the master is
   bound to: a child class that is legal here and whether the schema makes it
   mandatory. The context itself belongs to the schema and is never changed.
   */
  datatype ContextEntry = ContextEntry(id: Id, mandatory: bool)

  /**
   A master element. `id`, `position`, `sizeIsFinite`, `storedSize` and
   `sizeLength` are the state inherited from the element base class (its class
   ID, stream offset, finite-size flag, stored data size and requested width
   of the size field); `children` is `ElementList`; `context` is the semantic
   context; `checksumUsed` and `crc` are `bChecksumUsed` and the value held by
   the `Checksum` member.
   */
  datatype Master = Master(
    id: Id,
    position: uint64,
    sizeIsFinite: bool,
    storedSize: uint64,
    sizeLength: nat,
    children: seq<Elem>,
    context: seq<ContextEntry>,
    checksumUsed: bool,
    crc: bv32)

  /** The master after an edit, and whether the edit reported success. */
  datatype Edited = Edited(master: Master, ok: bool)

  /** The master after a lookup that may create, and the index found or created (`None` for null). */
  datatype Found = Found(master: Master, index: Option<nat>)

  /** The master after `AddNewElt`, and the index of the new child. */
  datatype Added = Added(master: Master, index: nat)

  /**
   A master as the constructor leaves it: bound to `context`, with no
   children, finite or unknown size as requested and checksumming at its
   default. The constructor's body is not part of this model, so the offset,
   stored size and size width start at zero ("not yet read or rendered").
   */
  function NewMaster(id: Id, context: seq<ContextEntry>, sizeIsKnown: bool := true): (r: Master)
    ensures IsDefaultValue(r) && ListSize(r) == 0
    ensures IsFiniteSize(r) == sizeIsKnown && HasChecksum(r) == ChecksumUsedByDefault
    ensures r.id == id && r.context == context
  {
    Master(id, 0, sizeIsKnown, 0, 0, [], context, ChecksumUsedByDefault, 0)
  }

  // ---------------------------------------------------------------------
  // Size and offset
  // ---------------------------------------------------------------------

  predicate IsFiniteSize(m: Master)
  {
    m.sizeIsFinite
  }

  /**
   `SetSizeInfinite(aIsInfinite)`: the size becomes unknown exactly when
   `aIsInfinite` holds; the call always reports success and touches nothing
   else.
   */
  function SetSizeInfinite(m: Master, isInfinite: bool := true): (r: Edited)
    ensures r.ok
    ensures IsFiniteSize(r.master) == !isInfinite
    ensures r.master.(sizeIsFinite := m.sizeIsFinite) == m
  {
    Edited(m.(sizeIsFinite := !isInfinite), true)
  }

  /**
   `GetSize()`: the stored data size when it is finite, and otherwise the
   all-ones 64-bit value that stands in memory for the unknown data size of
   section 6.2 of RFC 8794.

   The header's finite branch calls `GetSize()` unqualified, which names this
   very member, so as written it never returns (see `GetSizeAsWritten`). The
   model returns what that branch evidently means: the size stored by the
   element base class.
   */
  function GetSize(m: Master): (r: uint64)
    ensures IsFiniteSize(m) ==> r == m.storedSize
    ensures !IsFiniteSize(m) ==> r == MaxUInt64
  {
    if m.sizeIsFinite then m.storedSize else UnknownSize
  }

  /**
   `GetSize()` exactly as the header writes it, given a budget of `depth`
   further stack frames: the finite branch calls itself again, and `None`
   means the call stack ran out before a value came back.
   */
  function GetSizeAsWritten(m: Master, depth: nat): (r: Option<uint64>)
    ensures !IsFiniteSize(m) ==> r == Some(MaxUInt64)
    ensures r.Some? ==> r.value == MaxUInt64
  {
    if !m.sizeIsFinite then Some(UnknownSize)
    else if depth == 0 then None
    else GetSizeAsWritten(m, depth - 1)
  }

  /** However deep the stack, the header's `GetSize()` never returns on a finite size. */
  lemma {:induction false} GetSizeAsWrittenNeverReturns(m: Master, depth: nat)
    requires IsFiniteSize(m)
    ensures GetSizeAsWritten(m, depth) == None
  {
    if depth > 0 {
      GetSizeAsWrittenNeverReturns(m, depth - 1);
    }
  }

  /** On an unknown size the header's `GetSize()` and the model's agree. */
  lemma GetSizeAsWrittenUnknown(m: Master, depth: nat)
    requires !IsFiniteSize(m)
    ensures GetSizeAsWritten(m, depth) == Some(GetSize(m))
  {
  }

  /** The byte length of the element's header: its ID field and its size field. */
  function HeaderLength(m: Master, c: Codec): int
  {
    c.idLength(m.id) + c.codedSizeLength(GetSize(m), m.sizeLength, IsFiniteSize(m))
  }

  /**
   `GetDataStart()`: where the payload begins, the element's offset plus the
   width of its ID field plus the width of its size field, summed in `uint64`
   arithmetic. Below the top 16 values of the offset range the sum cannot
   wrap, and the payload then starts 2 to 16 bytes after the element.
   */
  function GetDataStart(m: Master, c: Codec): (r: uint64)
    requires VintWidths(c)
    ensures m.position <= MaxUInt64 - 16 ==> r - m.position == HeaderLength(m, c)
    ensures m.position <= MaxUInt64 - 16 ==> m.position + 2 <= r <= m.position + 16
  {
    Wrap64(m.position + c.idLength(m.id) + c.codedSizeLength(GetSize(m), m.sizeLength, m.sizeIsFinite))
  }

  /** At the very top of the offset range the `uint64` sum wraps below the offset. */
  lemma GetDataStartWraps(m: Master, c: Codec)
    requires VintWidths(c)
    requires m.position == MaxUInt64
    ensures GetDataStart(m, c) < m.position
  {
  }

  // ---------------------------------------------------------------------
  // The child list
  // ---------------------------------------------------------------------

  /** `ListSize()`: the number of children. */
  function ListSize(m: Master): nat
  {
    |m.children|
  }

  /** `IsDefaultValue()`: a master has its default value exactly when it has no children. */
  predicate IsDefaultValue(m: Master)
    ensures IsDefaultValue(m) <==> ListSize(m) == 0
  {
    m.children == []
  }

  /** `operator[]`: the child at an index; the vector access is unchecked, so the index must be in range. */
  function At(m: Master, position: nat): Elem
    requires position < ListSize(m)
  {
    m.children[position]
  }

  /**
   `PushElement(element)`: appends `element` after the existing children. The
   body is not part of this model; the element is a reference, never null, so
   the model has no failure path and always reports success.
   */
  function PushElement(m: Master, e: Elem): (r: Edited)
    ensures r.ok
    ensures ListSize(r.master) == ListSize(m) + 1 && r.master.children[ListSize(m)] == e
    ensures r.master.children[..ListSize(m)] == m.children
    ensures r.master.(children := m.children) == m
  {
    Edited(m.(children := m.children + [e]), true)
  }

  /**
   `InsertElement(element, position)` ("add an element at a specified
   location"; `position` defaults to 0): on success `element` sits at index
   `position` and removing it again gives back the old list, so the other
   children keep their order. The body is not part of this model; the model
   reports failure, changing nothing, when `position` is past the end of the
   list, the one case in which no location is designated.
   */
  function InsertElement(m: Master, e: Elem, position: nat := 0): (r: Edited)
    ensures r.ok <==> position <= ListSize(m)
    ensures r.ok ==> ListSize(r.master) == ListSize(m) + 1 && r.master.children[position] == e
    ensures r.ok ==> RemoveAt(r.master.children, position) == m.children
    ensures !r.ok ==> r.master == m
    ensures r.master.(children := m.children) == m
  {
    if position <= |m.children| then
      RemoveAfterInsert(m.children, e, position);
      Edited(m.(children := InsertAt(m.children, e, position)), true)
    else
      Edited(m, false)
  }

  /**
   `InsertElement(element, before)`: places `element` right before the child
   object `before`, identified by object identity. Fails, changing nothing,
   when `before` is not a child.
   */
  function InsertElementBefore(m: Master, e: Elem, before: Elem): (r: Edited)
    ensures r.ok <==> IndexOf(m.children, before).Some?
    ensures r.ok ==>
      var p := IndexOf(m.children, before).value;
      && ListSize(r.master) == ListSize(m) + 1
      && r.master.children[p] == e
      && r.master.children[p + 1] == before
      && RemoveAt(r.master.children, p) == m.children
    ensures !r.ok ==> r.master == m
    ensures r.master.(children := m.children) == m
  {
    match IndexOf(m.children, before)
    case None => Edited(m, false)
    case Some(p) =>
      RemoveAfterInsert(m.children, e, p);
      Edited(m.(children := InsertAt(m.children, e, p)), true)
  }

  /**
   `Remove(Index)`: takes the child at `Index` out of the list, the others
   keeping their order (putting it back at `Index` restores the old list). The
   body is not part of this model; an index past the end changes nothing.
   */
  function Remove(m: Master, index: nat): (r: Master)
    ensures index < ListSize(m) ==>
      && ListSize(r) == ListSize(m) - 1
      && InsertAt(r.children, m.children[index], index) == m.children
    ensures index >= ListSize(m) ==> r == m
    ensures r.(children := m.children) == m
  {
    if index < |m.children| then
      InsertAfterRemove(m.children, index);
      m.(children := RemoveAt(m.children, index))
    else
      m
  }

  /** `RemoveAll()`: every child goes, mandatory ones included; nothing else changes. */
  function RemoveAll(m: Master): (r: Master)
    ensures ListSize(r) == 0 && IsDefaultValue(r)
    ensures r.(children := m.children) == m
  {
    m.(children := [])
  }

  // ---------------------------------------------------------------------
  // Lookup by class
  // ---------------------------------------------------------------------

  /**
   `FindElt(Callbacks)`: an element of class `id`, or null. The header does
   not bound how deep the search goes; the model searches the nested masters
   too and returns the first match in document order, which is what sets it
   apart from `FindFirstElt`.
   */
  function FindElt(m: Master, id: Id): (r: Option<Elem>)
    ensures r == FirstOfClass(Flatten(m.children), id)
    ensures r.Some? ==> r.value.id == id && r.value in Flatten(m.children)
    ensures r.None? <==> forall e :: e in Flatten(m.children) ==> e.id != id
  {
    var flat := Flatten(m.children);
    assert FindFrom(flat, id, 0).None? <==> forall e :: e in flat ==> e.id != id by {
      if FindFrom(flat, id, 0).Some? {
        assert flat[FindFrom(flat, id, 0).value] in flat;
      }
    }
    FindDeep(m.children, id)
  }

  /**
   `FindFirstElt(Callbacks)` (the non-creating form): the index of the first
   child of class `id`, or `None` when no child has that class.
   */
  function FindFirstElt(m: Master, id: Id): (r: Option<nat>)
    ensures r.Some? ==> r.value < ListSize(m) && m.children[r.value].id == id
    ensures r.Some? ==> forall k :: 0 <= k < r.value ==> m.children[k].id != id
    ensures r.None? <==> !HasChild(m.children, id)
  {
    FindFrom(m.children, id, 0)
  }

  /**
   `FindFirstElt(Callbacks, bCreateIfNull)`: as the non-creating form; when no
   child has class `id` and `createIfNull` holds, a default element of the
   class, built by `create` as the newly allocated object `newHandle`, is appended
   and its index returned.
   */
  function FindFirstEltOrCreate(m: Master, id: Id, createIfNull: bool, create: Factory, newHandle: Handle): (r: Found)
    requires Builds(create)
    ensures FindFirstElt(m, id).Some? ==> r == Found(m, FindFirstElt(m, id))
    ensures FindFirstElt(m, id).None? && createIfNull ==>
      && r.master.children == m.children + [create(id, newHandle)]
      && r.index == Some(ListSize(m))
    ensures FindFirstElt(m, id).None? && !createIfNull ==> r == Found(m, None)
    ensures r.index.Some? ==> r.index.value < ListSize(r.master) && r.master.children[r.index.value].id == id
    ensures r.master.(children := m.children) == m
  {
    match FindFirstElt(m, id)
    case Some(i) => Found(m, Some(i))
    case None =>
      if createIfNull then Found(PushElement(m, create(id, newHandle)).master, Some(|m.children|))
      else Found(m, None)
  }

  /**
   `FindNextElt(PastElt)` (the non-creating form): the index of the first
   child after the object `past` that has `past`'s class. When `past` is not a
   child there is nothing following it, and the model answers `None`.
   */
  function FindNextElt(m: Master, past: Elem): (r: Option<nat>)
    ensures r.Some? ==>
      && IndexOf(m.children, past).Some?
      && IndexOf(m.children, past).value < r.value < ListSize(m)
      && m.children[r.value].id == past.id
      && forall k :: IndexOf(m.children, past).value < k < r.value ==> m.children[k].id != past.id
    ensures r.None? <==>
      || IndexOf(m.children, past).None?
      || forall k :: IndexOf(m.children, past).value < k < ListSize(m) ==> m.children[k].id != past.id
  {
    match IndexOf(m.children, past)
    case None => None
    case Some(p) => FindFrom(m.children, past.id, p + 1)
  }

  /**
   `FindNextElt(PastElt, bCreateIfNull)`: as the non-creating form; on a miss
   with `createIfNull`, a new element of `past`'s class, built as the newly
   allocated object `newHandle`, is appended and its index returned.
   */
  function FindNextEltOrCreate(m: Master, past: Elem, createIfNull: bool, create: Factory, newHandle: Handle): (r: Found)
    requires Builds(create)
    ensures FindNextElt(m, past).Some? ==> r == Found(m, FindNextElt(m, past))
    ensures FindNextElt(m, past).None? && createIfNull ==>
      && r.master.children == m.children + [create(past.id, newHandle)]
      && r.index == Some(ListSize(m))
    ensures FindNextElt(m, past).None? && !createIfNull ==> r == Found(m, None)
    ensures r.index.Some? ==> r.index.value < ListSize(r.master) && r.master.children[r.index.value].id == past.id
    ensures r.master.(children := m.children) == m
  {
    match FindNextElt(m, past)
    case Some(i) => Found(m, Some(i))
    case None =>
      if createIfNull then Found(PushElement(m, create(past.id, newHandle)).master, Some(|m.children|))
      else Found(m, None)
  }

  /**
   `AddNewElt(Callbacks)`: appends a new default element of class `id` whether
   or not the class is already present, built as the newly allocated object
   `newHandle`, and returns its index.
   */
  function AddNewElt(m: Master, id: Id, create: Factory, newHandle: Handle): (r: Added)
    requires Builds(create)
    ensures r.master.children == m.children + [create(id, newHandle)]
    ensures r.index == ListSize(m) && ListSize(r.master) == ListSize(m) + 1
    ensures r.master.children[r.index].id == id && r.master.children[..ListSize(m)] == m.children
    ensures r.master.(children := m.children) == m
  {
    Added(PushElement(m, create(id, newHandle)).master, |m.children|)
  }

  // ---------------------------------------------------------------------
  // Checksum state
  // ---------------------------------------------------------------------

  /** `HasChecksum()`. */
  predicate HasChecksum(m: Master)
  {
    m.checksumUsed
  }

  /** `GetCrc32()`: the value the checksum member holds. */
  function GetCrc32(m: Master): bv32
  {
    m.crc
  }

  /** `EnableChecksum(bIsEnabled)`: sets the flag only; the stored value and the children stay. */
  function EnableChecksum(m: Master, isEnabled: bool := true): (r: Master)
    ensures HasChecksum(r) == isEnabled
    ensures GetCrc32(r) == GetCrc32(m) && r.children == m.children
    ensures r.(checksumUsed := m.checksumUsed) == m
  {
    m.(checksumUsed := isEnabled)
  }

  /** `ForceChecksum(NewChecksum)`: stores the value and turns checksumming on; the children stay. */
  function ForceChecksum(m: Master, newChecksum: bv32): (r: Master)
    ensures HasChecksum(r) && GetCrc32(r) == newChecksum
    ensures r.children == m.children
    ensures r.(checksumUsed := m.checksumUsed, crc := m.crc) == m
  {
    m.(crc := newChecksum, checksumUsed := true)
  }

  // ---------------------------------------------------------------------
  // Mandatory children
  // ---------------------------------------------------------------------

  /** Every class the context marks mandatory has at least one direct child. */
  predicate MandatoryPresent(m: Master)
  {
    forall j :: 0 <= j < |m.context| && m.context[j].mandatory ==> HasChild(m.children, m.context[j].id)
  }

  /**
   `CheckMandatory()` ("verify that all mandatory elements are present"):
   walks the context and gives up at the first mandatory class with no direct
   child.
   */
  method CheckMandatory(m: Master) returns (ok: bool)
    ensures ok <==> MandatoryPresent(m)
  {
    var k := 0;
    while k < |m.context|
      invariant 0 <= k <= |m.context|
      invariant forall j :: 0 <= j < k && m.context[j].mandatory ==> HasChild(m.children, m.context[j].id)
    {
      if m.context[k].mandatory && FindFirstElt(m, m.context[k].id).None? {
        return false;
      }
      k := k + 1;
    }
    return true;
  }

  /** `r` starts with all of `s`, in order. */
  predicate KeepsPrefix(s: seq<Elem>, r: seq<Elem>)
  {
    |s| <= |r| && r[..|s|] == s
  }

  /** Every class `entries` marks mandatory has an element in `r`. */
  predicate Covers(r: seq<Elem>, entries: seq<ContextEntry>)
  {
    forall j :: 0 <= j < |entries| && entries[j].mandatory ==> HasChild(r, entries[j].id)
  }

  /** Each element `r` has beyond `s` is of a mandatory class of `entries` that `s` lacks. */
  predicate AddsOnlyMissing(s: seq<Elem>, r: seq<Elem>, entries: seq<ContextEntry>)
  {
    forall i :: |s| <= i < |r| ==>
      && !HasChild(s, r[i].id)
      && exists j :: 0 <= j < |entries| && entries[j].mandatory && entries[j].id == r[i].id
  }

  /**
   Each element `r` has beyond `s` is the default element of its class, built
   as a new object: the handles from `newHandle` on are given out in order.
   */
  predicate AddsDefaults(s: seq<Elem>, r: seq<Elem>, create: Factory, newHandle: Handle)
  {
    forall i :: |s| <= i < |r| ==> r[i] == create(r[i].id, newHandle + (i - |s|))
  }

  /** No two elements `r` has beyond `s` share a class. */
  predicate AddsOncePerClass(s: seq<Elem>, r: seq<Elem>)
  {
    forall i, k :: |s| <= i < k < |r| ==> r[i].id != r[k].id
  }

  /**
   Appends, in the order of `entries`, one default element built by `create`
   for each mandatory class that has no element in the list yet; the new
   objects get the handles `newHandle`, `newHandle + 1`, and so on.
   */
  function AddMissing(s: seq<Elem>, entries: seq<ContextEntry>, create: Factory, newHandle: Handle): (r: seq<Elem>)
    requires Builds(create)
    ensures KeepsPrefix(s, r)
    ensures Covers(r, entries)
    ensures AddsOnlyMissing(s, r, entries)
    ensures AddsDefaults(s, r, create, newHandle)
    ensures AddsOncePerClass(s, r)
    ensures Covers(s, entries) ==> r == s
    decreases |entries|
  {
    if |entries| == 0 then s
    else
      var e := entries[0];
      var next := if e.mandatory && !HasChild(s, e.id) then s + [create(e.id, newHandle)] else s;
      var r := AddMissing(next, entries[1..], create, newHandle + (|next| - |s|));
      AddMissingStep(s, entries, create, newHandle, next, r);
      r
  }

  /** One step of `AddMissing`: what holds after the first entry and after the rest holds for the whole. */
  lemma AddMissingStep(s: seq<Elem>, entries: seq<ContextEntry>, create: Factory, newHandle: Handle, next: seq<Elem>, r: seq<Elem>)
    requires Builds(create) && |entries| > 0
    requires next == if entries[0].mandatory && !HasChild(s, entries[0].id) then s + [create(entries[0].id, newHandle)] else s
    requires KeepsPrefix(next, r) && Covers(r, entries[1..]) && AddsOnlyMissing(next, r, entries[1..])
    requires AddsDefaults(next, r, create, newHandle + (|next| - |s|)) && AddsOncePerClass(next, r)
    requires Covers(next, entries[1..]) ==> r == next
    ensures KeepsPrefix(s, r)
    ensures Covers(r, entries)
    ensures AddsOnlyMissing(s, r, entries)
    ensures AddsDefaults(s, r, create, newHandle)
    ensures AddsOncePerClass(s, r)
    ensures Covers(s, entries) ==> r == s
  {
    var e := entries[0];
    assert forall i :: 0 <= i < |next| ==> r[i] == next[i] by {
      forall i | 0 <= i < |next| ensures r[i] == next[i] {
        assert r[..|next|][i] == r[i];
      }
    }
    assert forall i :: 0 <= i < |s| ==> next[i] == s[i];
    assert r[..|s|] == s;
    assert forall j :: 1 <= j < |entries| ==> entries[j] == entries[1..][j - 1];
    assert e.mandatory ==> HasChild(r, e.id) by {
      if e.mandatory {
        if HasChild(s, e.id) {
          var i :| 0 <= i < |s| && s[i].id == e.id;
          assert r[i].id == e.id;
        } else {
          assert r[|s|].id == e.id;
        }
      }
    }
    forall i | |s| <= i < |r|
      ensures !HasChild(s, r[i].id)
      ensures exists j :: 0 <= j < |entries| && entries[j].mandatory && entries[j].id == r[i].id
    {
      if i < |next| {
        assert entries[0].id == r[i].id;
      } else {
        var j :| 0 <= j < |entries[1..]| && entries[1..][j].mandatory && entries[1..][j].id == r[i].id;
        assert !HasChild(next, r[i].id);
      }
    }
    if Covers(s, entries) {
      assert next == s;
      assert Covers(next, entries[1..]);
    }
  }

  /**
   `ProcessMandatory()` ("add all the mandatory elements to the list"): after
   it every mandatory class of the context has a child; the existing children
   stay, in order, at the front, and each element added is of a mandatory
   class that had no child before, is that class's default element, and is
   the only one added for its class; the new objects get the handles `newHandle`,
   `newHandle + 1`, and so on. The body is not part of this model; a class that is
   already present gets no second element. The member is private in the
   class, so only the class itself calls it.
   */
  function ProcessMandatory(m: Master, create: Factory, newHandle: Handle): (r: Master)
    requires Builds(create)
    ensures MandatoryPresent(r)
    ensures ListSize(m) <= ListSize(r) && r.children[..ListSize(m)] == m.children
    ensures forall i :: ListSize(m) <= i < ListSize(r) ==>
      && !HasChild(m.children, r.children[i].id)
      && exists j :: 0 <= j < |m.context| && m.context[j].mandatory && m.context[j].id == r.children[i].id
    ensures forall i :: ListSize(m) <= i < ListSize(r) ==> r.children[i] == create(r.children[i].id, newHandle + (i - ListSize(m)))
    ensures forall i, k :: ListSize(m) <= i < k < ListSize(r) ==> r.children[i].id != r.children[k].id
    ensures MandatoryPresent(m) ==> r == m
    ensures r.(children := m.children) == m
  {
    m.(children := AddMissing(m.children, m.context, create, newHandle))
  }
}

=== FILE: ebml_types.dfy ===
/**
 The vocabulary shared by the master-element model: fixed-width unsigned
 integers as the C++ code uses them, element class IDs, child elements (leaves
 and nested masters) and the external variable-length-integer codec.
 */
module EbmlTypes {

  /** Largest value of the C++ `uint64` type, 2^64 - 1. */
  const MaxUInt64: int := 0xFFFF_FFFF_FFFF_FFFF

  /** Values of the C++ `uint64` type. */
  type uint64 = x: int | 0 <= x <= MaxUInt64

  /**
   Conversion of a mathematical integer to `uint64` as C++ unsigned arithmetic
   does it: reduction modulo 2^64 (Dafny's `%` is Euclidean, so negative
   arguments land in range too).
   */
  function Wrap64(x: int): (r: uint64)
    ensures 0 <= x <= MaxUInt64 ==> r == x
    ensures (r - x) % (MaxUInt64 + 1) == 0
  {
    x % (MaxUInt64 + 1)
  }

  /** An EBML class ID, kept abstract: only equality between IDs matters here. */
  type Id = nat

  /** The identity of one element object (its address in the C++ heap). */
  type Handle = nat

  /**
   A child of a master. `body` says whether the child is a leaf (its decoded
   value does not matter here) or is itself a master with children of its own,
   which is what `IsMaster()` distinguishes in the library.
   */
  datatype Elem = Elem(id: Id, handle: Handle, body: Body)

  datatype Body = Leaf | Nested(children: seq<Elem>)

  /**
   The element factory of a schema: for a class ID and the handle of a newly
   allocated object, the default element its `Create` callback builds there.
   */
  type Factory = (Id, Handle) -> Elem

  /** A factory builds, for every class, an element of that class, as the object it is given. */
  ghost predicate Builds(create: Factory)
  {
    forall id, h :: create(id, h).id == id && create(id, h).handle == h
  }

  /**
   The external codec's width functions: `idLength` stands for
   `EBML_ID_LENGTH` and `codedSizeLength(size, sizeLength, isFinite)` for
   `CodedSizeLength`. Their bodies are not part of this model.
   */
  datatype Codec = Codec(idLength: Id -> int, codedSizeLength: (uint64, nat, bool) -> int)

  /**
   Both widths are those of an EBML variable-size integer, 1 to 8 octets
   (sections 4 and 5 of RFC 8794).
   */
  ghost predicate VintWidths(c: Codec)
  {
    && (forall id :: 1 <= c.idLength(id) <= 8)
    && (forall v, w, f :: 1 <= c.codedSizeLength(v, w, f) <= 8)
  }
}

=== FILE: master_properties.dfy ===
/**
 Properties that relate several operations of the master element: inverse
 pairs on the child list, lookups after creation, size and checksum state
 across the setters, and the mandatory-element pair.
 */
module MasterProperties {
  import opened Wrappers
  import opened EbmlTypes
  import opened ChildList
  import opened EbmlMaster

  // ---------------------------------------------------------------------
  // Size and checksum state
  // ---------------------------------------------------------------------

  /**
   Switching to unknown size makes `GetSize` answer the all-ones marker, and
   switching back restores the stored size, which the switch never touched.
   */
  lemma SizeModeRoundTrip(m: Master)
    ensures GetSize(SetSizeInfinite(m, true).master) == MaxUInt64
    ensures GetSize(SetSizeInfinite(SetSizeInfinite(m, true).master, false).master) == m.storedSize
    ensures SetSizeInfinite(SetSizeInfinite(m, true).master, m.sizeIsFinite == false).master == m
  {
  }

  /** The checksum flag and the stored checksum value are independent of each other. */
  lemma ChecksumFlagKeepsValue(m: Master, c: bv32)
    ensures !HasChecksum(EnableChecksum(ForceChecksum(m, c), false))
    ensures GetCrc32(EnableChecksum(ForceChecksum(m, c), false)) == c
    ensures EnableChecksum(ForceChecksum(m, c), false).children == m.children
  {
  }

  /**
   The finite flag decides what `GetSize` reports, only `SetSizeInfinite`
   changes it, and the child-list and checksum operations leave it alone.
   */
  lemma IsFiniteSizeFollowsSetter(m: Master, isInfinite: bool, e: Elem, c: bv32)
    ensures !IsFiniteSize(m) ==> GetSize(m) == MaxUInt64
    ensures GetSize(m) != MaxUInt64 ==> IsFiniteSize(m)
    ensures IsFiniteSize(SetSizeInfinite(m, isInfinite).master) == !isInfinite
    ensures IsFiniteSize(PushElement(m, e).master) == IsFiniteSize(m)
    ensures IsFiniteSize(RemoveAll(m)) == IsFiniteSize(m)
    ensures IsFiniteSize(ForceChecksum(m, c)) == IsFiniteSize(m)
  {
  }

  /**
   `HasChecksum` reads the flag the checksum setters write; a new master
   starts without it, and editing the child list never changes it.
   */
  lemma HasChecksumFollowsSetters(m: Master, isEnabled: bool, c: bv32, e: Elem, p: nat, i: nat)
    ensures !HasChecksum(NewMaster(m.id, m.context, m.sizeIsFinite))
    ensures HasChecksum(EnableChecksum(m, isEnabled)) == isEnabled
    ensures HasChecksum(ForceChecksum(m, c))
    ensures HasChecksum(PushElement(m, e).master) == HasChecksum(m)
    ensures HasChecksum(InsertElement(m, e, p).master) == HasChecksum(m)
    ensures HasChecksum(Remove(m, i)) == HasChecksum(m)
    ensures HasChecksum(RemoveAll(m)) == HasChecksum(m)
  {
  }

  /**
   `GetCrc32` reads the value `ForceChecksum` stores; turning the flag on or
   off and editing the child list keep it.
   */
  lemma GetCrc32FollowsSetters(m: Master, isEnabled: bool, c: bv32, e: Elem, p: nat, i: nat)
    ensures GetCrc32(ForceChecksum(m, c)) == c
    ensures GetCrc32(EnableChecksum(m, isEnabled)) == GetCrc32(m)
    ensures GetCrc32(PushElement(m, e).master) == GetCrc32(m)
    ensures GetCrc32(InsertElement(m, e, p).master) == GetCrc32(m)
    ensures GetCrc32(Remove(m, i)) == GetCrc32(m)
    ensures GetCrc32(RemoveAll(m)) == GetCrc32(m)
  {
  }

  // ---------------------------------------------------------------------
  // Insertion and removal
  // ---------------------------------------------------------------------

  /** Removing the element just inserted at `position` restores the master. */
  lemma RemoveUndoesInsert(m: Master, e: Elem, position: nat)
    requires position <= ListSize(m)
    ensures Remove(InsertElement(m, e, position).master, position) == m
  {
  }

  /** Re-inserting a removed child where it was restores the master. */
  lemma InsertUndoesRemove(m: Master, index: nat)
    requires index < ListSize(m)
    ensures InsertElement(Remove(m, index), At(m, index), index) == Edited(m, true)
  {
  }

  /** Pushing an element is inserting it at the end of the list. */
  lemma PushIsInsertAtEnd(m: Master, e: Elem)
    ensures PushElement(m, e) == InsertElement(m, e, ListSize(m))
  {
    assert m.children + [e] == InsertAt(m.children, e, |m.children|);
  }

  /**
   `ListSize` counts the children: a new master has none, a push or a
   successful insert adds one, a removal in range takes one away, a failed
   insert or an out-of-range removal changes nothing, and `RemoveAll` leaves
   none.
   */
  lemma ListSizeTracksEdits(m: Master, e: Elem, p: nat, i: nat)
    ensures ListSize(NewMaster(m.id, m.context, m.sizeIsFinite)) == 0
    ensures ListSize(PushElement(m, e).master) == ListSize(m) + 1
    ensures ListSize(InsertElement(m, e, p).master) == if p <= ListSize(m) then ListSize(m) + 1 else ListSize(m)
    ensures ListSize(Remove(m, i)) == if i < ListSize(m) then ListSize(m) - 1 else ListSize(m)
    ensures ListSize(RemoveAll(m)) == 0
  {
  }

  /**
   `operator[]` after an insert at `p`: index `p` holds the new element, the
   indices before it hold what they held, and the ones after it hold what was
   one place to the left.
   */
  lemma AtAfterInsert(m: Master, e: Elem, p: nat)
    requires p <= ListSize(m)
    ensures var r := InsertElement(m, e, p).master;
      && At(r, p) == e
      && (forall k :: 0 <= k < p ==> At(r, k) == At(m, k))
      && (forall k :: p < k < ListSize(r) ==> At(r, k) == At(m, k - 1))
  {
    var r := InsertElement(m, e, p).master;
    assert r.children == InsertAt(m.children, e, p);
  }

  /**
   `operator[]` after removing index `i`: the indices before `i` hold what
   they held, and from `i` on each holds what was one place to the right.
   */
  lemma AtAfterRemove(m: Master, i: nat)
    requires i < ListSize(m)
    ensures var r := Remove(m, i);
      && (forall k :: 0 <= k < i ==> At(r, k) == At(m, k))
      && (forall k :: i <= k < ListSize(r) ==> At(r, k) == At(m, k + 1))
  {
    var r := Remove(m, i);
    assert r.children == RemoveAt(m.children, i);
  }

  /**
   Inserting at the default position 0 puts the element first, so it becomes
   the first child of its class.
   */
  lemma InsertFrontIsFoundFirst(m: Master, e: Elem)
    ensures FindFirstElt(InsertElement(m, e).master, e.id) == Some(0)
  {
  }

  /**
   The header's default arguments: a master is built with a known size,
   `SetSizeInfinite()` switches to unknown size, `EnableChecksum()` turns
   checksumming on, and `InsertElement(element)` puts the element first.
   */
  lemma DefaultArguments(m: Master, id: Id, context: seq<ContextEntry>, e: Elem)
    ensures IsFiniteSize(NewMaster(id, context))
    ensures !IsFiniteSize(SetSizeInfinite(m).master)
    ensures GetSize(SetSizeInfinite(m).master) == MaxUInt64
    ensures HasChecksum(EnableChecksum(m))
    ensures InsertElement(m, e).ok && At(InsertElement(m, e).master, 0) == e
    ensures InsertElement(m, e) == InsertElement(m, e, 0)
  {
  }

  /** After `RemoveAll` the master has its default value, and it passes `CheckMandatory` only if its context has no mandatory class. */
  lemma RemoveAllMandatory(m: Master)
    ensures IsDefaultValue(RemoveAll(m))
    ensures MandatoryPresent(RemoveAll(m)) <==> forall j :: 0 <= j < |m.context| ==> !m.context[j].mandatory
  {
  }

  // ---------------------------------------------------------------------
  // Lookup
  // ---------------------------------------------------------------------

  /**
   The creating form of `FindFirstElt` always yields an element, and a later
   non-creating lookup finds that same element rather than a new one.
   */
  lemma FindFirstFindsCreated(m: Master, id: Id, create: Factory, h: Handle)
    requires Builds(create)
    ensures FindFirstEltOrCreate(m, id, true, create, h).index.Some?
    ensures FindFirstElt(FindFirstEltOrCreate(m, id, true, create, h).master, id) == FindFirstEltOrCreate(m, id, true, create, h).index
  {
  }

  /**
   `AddNewElt` adds a child even when the class is present: the first child
   of the class stays the one found before, and removing the new last child
   gives back the master.
   */
  lemma AddNewEltKeepsFirst(m: Master, id: Id, create: Factory, h: Handle)
    requires Builds(create)
    ensures FindFirstElt(m, id).Some? ==> FindFirstElt(AddNewElt(m, id, create, h).master, id) == FindFirstElt(m, id)
    ensures FindFirstElt(m, id).None? ==> FindFirstElt(AddNewElt(m, id, create, h).master, id) == Some(ListSize(m))
    ensures Remove(AddNewElt(m, id, create, h).master, ListSize(m)) == m
  {
    var r := AddNewElt(m, id, create, h).master;
    assert forall k :: 0 <= k < |m.children| ==> r.children[k] == m.children[k];
    assert r.children[..|m.children|] == m.children;
  }

  /** On an empty master the creating lookup adds exactly one child, which it returns. */
  lemma CreateOnEmpty(m: Master, id: Id, create: Factory, h: Handle)
    requires Builds(create) && IsDefaultValue(m)
    ensures FindFirstEltOrCreate(m, id, true, create, h).master.children == [create(id, h)]
    ensures FindFirstEltOrCreate(m, id, true, create, h).index == Some(0)
  {
  }

  /**
   `FindNextElt` from the first child of a class finds the second child of
   that class, or `None` when the first is the only one.
   */
  lemma FindNextAfterFirst(m: Master, id: Id)
    requires FindFirstElt(m, id).Some?
    ensures var i := FindFirstElt(m, id).value;
      var r := FindNextElt(m, m.children[i]);
      && (r.Some? ==> i < r.value && m.children[r.value].id == id
                        && forall k :: 0 <= k < r.value && k != i ==> m.children[k].id != id)
      && (r.None? ==> forall k :: 0 <= k < ListSize(m) && k != i ==> m.children[k].id != id)
  {
  }

  /**
   The creating form of `FindNextElt` always yields an element, whether or
   not `past` is a child: a miss of either kind falls through to creation.
   */
  lemma FindNextCreatingYields(m: Master, past: Elem, create: Factory, h: Handle)
    requires Builds(create)
    ensures FindNextEltOrCreate(m, past, true, create, h).index.Some?
    ensures FindNextEltOrCreate(m, past, true, create, h).index.value < ListSize(FindNextEltOrCreate(m, past, true, create, h).master)
  {
  }

  /**
   When `past` is a child, a non-creating lookup from `past` after the
   creating one finds the element the creating one yielded.
   */
  lemma FindNextFindsCreated(m: Master, past: Elem, create: Factory, h: Handle)
    requires Builds(create) && IndexOf(m.children, past).Some?
    ensures FindNextElt(FindNextEltOrCreate(m, past, true, create, h).master, past) == FindNextEltOrCreate(m, past, true, create, h).index
  {
    if FindNextElt(m, past).None? {
      var s := m.children + [create(past.id, h)];
      var p := IndexOf(m.children, past).value;
      AppendKeepsIndex(m.children, create(past.id, h), past);
      assert s[|m.children|].id == past.id;
      assert FindFrom(s, past.id, p + 1) == Some(|m.children|);
    }
  }

  /**
   An element built on a handle no child uses is a new object: `AddNewElt`
   puts it last, and it is found there by identity.
   */
  lemma AddedIsNewObject(m: Master, id: Id, create: Factory, h: Handle)
    requires Builds(create) && Unused(m.children, h)
    ensures IndexOf(AddNewElt(m, id, create, h).master.children, create(id, h)) == Some(ListSize(m))
  {
    var s := AddNewElt(m, id, create, h).master.children;
    assert forall k :: 0 <= k < ListSize(m) ==> s[k].handle != h;
  }

  /**
   The newest child has nothing after it: `FindNextElt` from the element
   `AddNewElt` just appended answers `None`, so the creating form appends a
   second new object of the class behind it rather than returning an old one.
   */
  lemma CreateNextAfterNewest(m: Master, id: Id, create: Factory, h: Handle, h2: Handle)
    requires Builds(create) && Unused(m.children, h) && Unused(m.children, h2) && h != h2
    ensures var a := AddNewElt(m, id, create, h).master;
      && FindNextElt(a, create(id, h)).None?
      && FindNextEltOrCreate(a, create(id, h), true, create, h2).master.children == m.children + [create(id, h), create(id, h2)]
      && FindNextEltOrCreate(a, create(id, h), true, create, h2).index == Some(ListSize(m) + 1)
  {
    AddedIsNewObject(m, id, create, h);
  }

  /** A direct child of class `id` is always found by `FindElt`. */
  lemma FindEltSeesDirectChildren(m: Master, id: Id)
    requires HasChild(m.children, id)
    ensures FindElt(m, id).Some?
  {
  }

  /** Every element of the list is a leaf. */
  predicate AllLeaves(s: seq<Elem>)
  {
    forall i :: 0 <= i < |s| ==> s[i].body.Leaf?
  }

  /** A list of leaves is its own document-order listing. */
  lemma {:induction false} FlattenLeaves(s: seq<Elem>)
    requires AllLeaves(s)
    ensures Flatten(s) == s
  {
    if |s| > 0 {
      assert AllLeaves(s[1..]) by {
        forall i | 0 <= i < |s[1..]| ensures s[1..][i].body.Leaf? {
          assert s[1..][i] == s[i + 1];
        }
      }
      FlattenLeaves(s[1..]);
      assert s == [s[0]] + s[1..];
    }
  }

  /**
   Without nested masters, `FindElt` and the non-creating `FindFirstElt`
   agree: both give the first child of the class.
   */
  lemma FindEltOnLeaves(m: Master, id: Id)
    requires AllLeaves(m.children)
    ensures FindElt(m, id) == (match FindFirstElt(m, id) case None => None case Some(i) => Some(At(m, i)))
  {
    FlattenLeaves(m.children);
  }

  // ---------------------------------------------------------------------
  // Mandatory children
  // ---------------------------------------------------------------------

  /** A second `ProcessMandatory` adds nothing. */
  lemma ProcessMandatoryIdempotent(m: Master, create: Factory, h: Handle, h2: Handle)
    requires Builds(create)
    ensures ProcessMandatory(ProcessMandatory(m, create, h), create, h2) == ProcessMandatory(m, create, h)
  {
  }

  /**
   Scenario: the context requires class 1 and allows class 2. An empty master
   fails the check; `ProcessMandatory` adds exactly the class-1 default; the
   check then passes.
   */
  lemma ProcessMandatoryScenario(create: Factory, h: Handle)
    requires Builds(create)
    ensures var m := NewMaster(7, [ContextEntry(1, true), ContextEntry(2, false)], true);
      && !MandatoryPresent(m)
      && ProcessMandatory(m, create, h).children == [create(1, h)]
      && MandatoryPresent(ProcessMandatory(m, create, h))
  {
    var m := NewMaster(7, [ContextEntry(1, true), ContextEntry(2, false)], true);
    assert !HasChild(m.children, 1);
    assert m.context[0].mandatory && m.context[0].id == 1;
  }
}

=== FILE: wrappers.dfy ===
/** Optional values: the model's stand-in for a pointer that may be null. */
module Wrappers {

  /** `None` plays the role of a null element pointer. */
  datatype Option<+T> = None | Some(value: T)
}
